=== FILE: README.md ===
# Braille progress bar of the simulated image pull

This project models the core of `simulate_pull.py`, a small script that
animates a fake "docker pull" in the terminal, and proves properties of that
model in Dafny. The core has four parts:

- **Glyph encoder** (`braille_char`, module `Braille`, `braille.dfy`). It maps
  a fill count to one Unicode Braille glyph. It starts from U+2800 and raises
  one dot per filled sub-cell, in the fixed order `FILL_ORDER = [7, 3, 2, 1,
  8, 6, 5, 4]`. Each dot's bit is `DOT_MASKS[i] = 1 << (i - 1)`. The source
  adds up the masks with `sum`. The model keeps that integer sum
  (`MaskSum`) and proves it equal to the bitwise or of the masks
  (`MaskOr`). The proof uses two facts: `FILL_ORDER` is a permutation of
  1..8, and the masks are distinct single bits. From this follow the
  properties below. The glyph for `filled` shows exactly
  `clamp(filled, 0, 8)` dots. The decoder for this is `DotCount`. The masks
  are nested, and eight dots give 0xFF, which is the source's hard-coded
  full glyph. The source or-s the mask into `BRAILLE_BASE` with Python's
  integer `|`; the model writes that operator out bit by bit (`BitOr`) and
  proves that, because the low byte of U+2800 is zero, the or adds the mask.
- **Bar builder** (`braille_bar`, module `BarRenderer`, `bar.dfy`). This is
  an imperative method that builds the list the way the source does: `full`
  full glyphs, at most one partial glyph, then padding. It is proved equal
  to `Bar`, a definition given cell by cell. The lemmas about `Bar` cover
  three things. First, the length: exactly `cells` when
  `0 <= filled <= 8 * cells`, and more than `cells` once
  `filled >= 8 * (cells + 1)`, because the builder does not clamp. Second,
  the content: for a non-negative fill, cell `i` shows `filled - 8 * i`
  sub-units, capped to 0..8. Third, the total: when
  `0 <= filled <= 8 * cells`, the sub-units shown across the bar add up to
  `filled`.
  Python's `int()` truncates toward zero, and this is modelled by `Trunc`
  on reals.
- **Line renderer** (`render_line`, module `LineRenderer`, `line.dfy`). It
  clamps the ratio with `min(current / total, 1.0)`. It then picks the
  spinner frame `spin_index % 6` with "Pulling", or the green check mark
  with "Done". The lemmas show what the clamp buys. With `total > 0` and
  `current >= 0`, the bar always has ten cells. The bar is entirely full
  exactly when the line says "Done".
- **Pull loop** (`simulate_pull`, module `Simulation`, `simulation.dfy`).
  This is a `while` loop over a real counter. Each step adds a draw in
  [5, 12] and caps the result at the total. The random source is the
  parameter `draw`. The method returns the lines it writes and the final
  line. Its contract says four things. For a positive total, the loop runs at
  least once and at most `ceil(total / 5)` times; a negative total writes no
  loop lines, only the final "Done" line. For a positive total, the counter
  ends exactly at the total. Every line but the last says "Pulling", and
  the last one and the final line say "Done".

Where the docstrings and the code disagree, the model follows the code:

- `braille_bar`'s docstring expects a ratio in 0.0..1.0, but the code does
  not clamp. A ratio of at least 1 + 1/cells (a fill of at least
  8 * (cells + 1) sub-units) gives more than `cells` glyphs (`BarLength`).
  Between 1 and that, the bar stays at `cells` full glyphs and the extra
  sub-units are not shown.
- A slightly negative ratio is not drawn empty. For example, -0.05 on ten
  cells truncates to -4 sub-units. Floor division then gives `full = -1`
  and `partial = 4`, so the first cell shows 4 dots
  (`NegativeRatioShowsDots`). `render_line` never passes a negative ratio
  when `current >= 0` and `total > 0`.
- `ljust` pads the name to 15 characters but never truncates it (`LJust`).

## Model

| member | source | states |
|---|---|---|
| `Braille.DotMask` | simulate_pull.py:17 | each dot's mask has exactly one bit set |
| `Braille.FillOrderIsPermutation` | simulate_pull.py:14 | the fill order has 8 entries, each a dot number 1..8, all distinct |
| `Braille.DotMasksDisjoint` | simulate_pull.py:17 | two dot masks overlap if and only if they are the same dot |
| `Braille.MaskOrHasDot` | simulate_pull.py:29 | a dot is raised in the mask of the first k fill-order entries if and only if it is among them |
| `Braille.NextDotIsFresh` | simulate_pull.py:29 | the next dot in the fill order is not yet raised, so adding its mask never carries |
| `Braille.MaskSum` | simulate_pull.py:29 | the integer sum of the first k dot masks equals their bitwise or |
| `Braille.MaskOrCount` | simulate_pull.py:29 | the mask of the first k dots has exactly k bits set |
| `Braille.MaskOrNested` | simulate_pull.py:29 | for j <= k the mask of j dots is a subset of the mask of k dots |
| `Braille.FullMaskAgrees` | simulate_pull.py:27-29 | the sum over all 8 dots is 0xFF, so the hard-coded full glyph is the one the general branch would build |
| `Braille.BitOr` | simulate_pull.py:28-30 | Python's integer or is at least each operand and at most their sum |
| `Braille.OrIntoLowZeros` | simulate_pull.py:28-30 | Python's integer or of a multiple of 2^n and a value below 2^n is their sum, by induction on n |
| `Braille.Glyph` | simulate_pull.py:26-30 | BRAILLE_BASE or-ed with a mask in 0..0xFF is the code point U+2800 + mask, and the pattern byte decoded from it is the mask |
| `Braille.BrailleChar` | simulate_pull.py:20-30 | the glyph is in U+2800..U+28FF; U+2800 for filled <= 0, U+28FF for filled >= 8 |
| `Braille.BrailleCharDotCount` | simulate_pull.py:20-30 | the glyph shows exactly clamp(filled, 0, 8) dots (`DotCount` decodes it back) |
| `Braille.BrailleCharPattern` | simulate_pull.py:29-30 | for 0 < filled < 8 the code point is U+2800 plus the mask sum, and its dots are the first `filled` dots of the fill order |
| `Braille.BrailleCharMonotone` | simulate_pull.py:25-30 | a larger fill keeps every dot a smaller fill raised |
| `Braille.BrailleCharInjective` | simulate_pull.py:20-30 | equal glyphs come from equal fills once clamped to 0..8 |
| `BarRenderer.Trunc` | simulate_pull.py:39 | `int()` rounds toward zero: below for non-negative, above for negative values |
| `BarRenderer.Repeat` | simulate_pull.py:42-45 | `[c] * n` has max(n, 0) elements, all equal to c |
| `BarRenderer.BuiltIsBar` | simulate_pull.py:42-45 | full glyphs, then the partial glyph when full < cells, then padding up to cells, is exactly the cell-by-cell bar |
| `BarRenderer.BrailleBar` | simulate_pull.py:32-46 | the list built by append and `+=` is the cell-by-cell bar `Bar(filled, cells)` for `filled = int(ratio * cells * 8)`, wrapped in the yellow and reset escapes |
| `BarRenderer.Filled` | simulate_pull.py:38-39 | `int(ratio * cells * 8)`: for cells >= 0, a ratio of at least 0 fills no negative count, and a ratio of at most 1 fills at most 8 * cells sub-units |
| `BarRenderer.FilledBelowFull` | simulate_pull.py:38-39 | a ratio in [0, 1) leaves at least one sub-unit unfilled |
| `BarRenderer.FilledMonotone` | simulate_pull.py:38-39 | the filled sub-unit count does not decrease as the ratio grows |
| `BarRenderer.Bar` | simulate_pull.py:40-45 | the list has at least `cells` glyphs, exactly `cells` when the fill fits (filled <= 8 * cells, with filled >= 0 or cells > 0), and every glyph is a Braille pattern U+2800..U+28FF |
| `BarRenderer.BarLength` | simulate_pull.py:40-45 | for filled >= 0 the bar has max(cells, filled // 8) glyphs, so more than cells when filled >= 8 * (cells + 1) |
| `BarRenderer.BarCell` | simulate_pull.py:40-45 | for filled >= 0, cell i is `braille_char(filled - 8 * i)` and shows clamp(filled - 8 * i, 0, 8) sub-units |
| `BarRenderer.BarShowsFilled` | simulate_pull.py:38-45 | when 0 <= filled <= 8 * cells the sub-units shown across all glyphs add up to filled |
| `BarRenderer.BarEnds` | simulate_pull.py:38-45 | ratio 0 gives `cells` empty glyphs and ratio 1 gives `cells` full glyphs |
| `BarRenderer.BarMonotone` | simulate_pull.py:40-45 | with the fill in range, a larger fill keeps every raised dot of every cell |
| `BarRenderer.HalfBar` | simulate_pull.py:38-45 | ratio 0.5 on 10 cells gives 5 full glyphs followed by 5 empty ones |
| `BarRenderer.NegativeRatioShowsDots` | simulate_pull.py:39-44 | ratio -0.05 on 10 cells gives filled = -4 and a first cell showing 4 dots |
| `LineRenderer.LJust` | simulate_pull.py:61 | the padded name has length max(len, 15), starts with the name and is filled with spaces; never truncated |
| `LineRenderer.LineRatio` | simulate_pull.py:56 | the ratio is at most 1, equals current / total unless capped, is 1 exactly when current >= total (total > 0), and is non-negative for current >= 0 |
| `LineRenderer.LineBar` | simulate_pull.py:56-57 | for any counter and non-zero total, the capped ratio gives a bar of exactly 10 glyphs |
| `LineRenderer.ComposeLayout` | simulate_pull.py:61-63 | the f-string lays the line out as: status glyph, a space, the name padded to 15, " [" and the yellow escape, the bar's glyphs, the reset escape and "] ", the size readout, a space and the verdict, and nothing else |
| `LineRenderer.ComposeEnds` | simulate_pull.py:61-63 | a composed line starts with its status glyph and ends with " " and its verdict |
| `LineRenderer.RenderLine` | simulate_pull.py:48-63 | current < total: starts with spinner frame spin_index % 6 and ends with " Pulling"; otherwise: starts with the green check mark and ends with " Done" |
| `LineRenderer.RenderLineLayout` | simulate_pull.py:56-63 | the whole line has that layout: below the total with spinner frame spin_index % 6 and "Pulling", otherwise with the green check mark and "Done", and in both cases the capped ratio's bar followed by the size readout |
| `LineRenderer.LineBarWidth` | simulate_pull.py:56-57 | with total > 0 and current >= 0 the clamp keeps the bar at exactly 10 cells, showing the filled sub-units |
| `LineRenderer.LineBarFullIffDone` | simulate_pull.py:56-63 | with total > 0 and current >= 0 the bar is all full glyphs if and only if current >= total, i.e. the line says "Done" |
| `Simulation.Progress` | simulate_pull.py:73-74 | after at least one step (or for a non-negative total) the counter never exceeds the total |
| `Simulation.ProgressInRange` | simulate_pull.py:71-74 | for total_mb > 0, the counter stays in [0, total_mb] |
| `Simulation.ProgressStep` | simulate_pull.py:73-74 | for total_mb > 0, each step raises the counter by at least 5 or brings it to total_mb, and never lowers it |
| `Simulation.ProgressMonotone` | simulate_pull.py:73-74 | for total_mb > 0, the counter never goes down over any number of steps |
| `Simulation.ProgressAtLeast` | simulate_pull.py:73-74 | for total_mb > 0, after k steps the counter is at total_mb or at least 5 * k |
| `Simulation.ProgressReachesTotal` | simulate_pull.py:73-74 | for total_mb > 0, after ceil(total_mb / 5) steps the counter equals total_mb |
| `Simulation.Frame` | simulate_pull.py:73-75 | the line after step k + 1 shows spinner frame k % 6 and "Pulling" while the counter is below the total, the check mark and "Done" once it equals the total |
| `Simulation.Frames` | simulate_pull.py:73-78 | the lines written during the first n steps: n of them, line k being the line after step k + 1 |
| `Simulation.PullingThenDone` | simulate_pull.py:73-75 | if the counter first reaches the total at step n, lines 1..n-1 say "Pulling" and line n says "Done" |
| `Simulation.SimulatePull` | simulate_pull.py:65-80 | for total_mb > 0 the loop runs 1 to ceil(total_mb / 5) times and ends with the counter at total_mb; for total_mb < 0 it writes no loop lines; in every case it writes line k for the counter after step k+1 with spinner frame k, every line before the last says "Pulling", and the last loop line and the final line say "Done" |

## Left out

- Terminal output: `sys.stdout.write`, `flush`, `print` and the `\r` that
  overwrites the line are not modelled. `SimulatePull` returns the written
  lines as a sequence instead.
- `time.sleep(0.08)` is timing only, so it is not modelled.
- `random.uniform(5, 12)` is replaced by the parameter `draw`. Each value
  of `draw` must lie in [5, 12].
- Floating point: `current`, `total` and `ratio` are exact reals, and IEEE
  rounding in `ratio * total_subcells` and `current + step` is not
  modelled.
- The `:.1f` size readout (`size_text`) is a string supplied by the caller,
  a function of `(current, total)` in `SimulatePull`. Its formatting is not
  modelled.
- Division by zero when `total` is 0 raises in the source. The model does
  not reproduce that failure: `RenderLine` and `SimulatePull` require
  `total != 0`.
- The `__main__` example call with "elasticsearch" and 723.4 is not modelled.

=== FILE: bar.dfy ===
/** The progress bar: a row of Braille cells, eight sub-units per cell,
    filled left to right. */
module BarRenderer {
  import opened Braille

  /** ANSI escapes wrapped around the bar (bright yellow, then reset). */
  const Yellow: string := "\U{1B}[93m"
  const Reset: string := "\U{1B}[0m"

  function Max(a: int, b: int): (m: int)
    ensures m >= a && m >= b && (m == a || m == b)
  {
    if a >= b then a else b
  }

  /** Conversion of a real to an integer, rounding toward zero. */
  function Trunc(x: real): (n: int)
    ensures x >= 0.0 ==> n as real <= x < n as real + 1.0
    ensures x < 0.0 ==> n as real - 1.0 < x <= n as real
  {
    if x >= 0.0 then x.Floor else -((-x).Floor)
  }

  /** Number of filled sub-units for a progress ratio on a bar of `cells`
      cells: the bar's `cells * 8` sub-units scaled by the ratio, truncated
      toward zero. A ratio of at least 0 fills none below zero, and a ratio
      of at most 1 fills no more sub-units than the bar has. */
  function Filled(ratio: real, cells: int): (filled: int)
    ensures 0 <= cells && 0.0 <= ratio ==> 0 <= filled
    ensures 0 <= cells && ratio <= 1.0 ==> filled <= SubUnits * cells
  {
    var total := (cells * SubUnits) as real;
    ScaleBounds(ratio, total);
    Trunc(ratio * total)
  }

  /** A list of `n` copies of `c`; no copies when `n` is not positive. */
  function Repeat(c: char, n: int): (s: seq<char>)
    ensures |s| == if n < 0 then 0 else n
    ensures forall i :: 0 <= i < |s| ==> s[i] == c
  {
    if n <= 0 then [] else Repeat(c, n - 1) + [c]
  }

  /** The glyphs of the bar, cell by cell: `filled / 8` full cells (none if
      that is negative), then, while there is room, one cell with the
      remaining `filled % 8` sub-units, then empty cells up to `cells`. */
  function Bar(filled: int, cells: int): (bar: seq<char>)
    ensures |bar| >= cells
    ensures (0 <= filled || 0 < cells) && filled <= SubUnits * cells ==> |bar| == cells
    ensures forall i :: 0 <= i < |bar| ==> BrailleBase <= bar[i] as int <= BrailleBase + 0xFF
  {
    var full := filled / SubUnits;
    var lead := Max(full, 0);
    var partial := full < cells;
    var len := Max(cells, lead + (if partial then 1 else 0));
    FullCellsFit(filled, cells);
    seq(len, i requires 0 <= i < len =>
      if i < lead then FullGlyph
      else if i == lead && partial then BrailleChar(filled % SubUnits)
      else EmptyGlyph)
  }

  /** A fill that fits the bar leaves room for its partial cell. */
  lemma FullCellsFit(filled: int, cells: int)
    ensures filled <= SubUnits * cells ==> filled / SubUnits <= cells
  {
    assert SubUnits == 8;
  }

  /** Builds the bar for `ratio` the way the source does: full cells, at
      most one partial cell, then padding, wrapped in the bar colour. */
  method BrailleBar(ratio: real, cells: int) returns (glyphs: seq<char>, text: string)
    ensures glyphs == Bar(Filled(ratio, cells), cells)
    ensures text == Yellow + glyphs + Reset
  {
    var filled := Filled(ratio, cells);
    var full := filled / SubUnits;
    var partial := filled % SubUnits;
    glyphs := Repeat(BrailleChar(8), full);
    if full < cells {
      glyphs := glyphs + [BrailleChar(partial)];
    }
    ghost var head := glyphs;
    glyphs := glyphs + Repeat(BrailleChar(0), cells - |glyphs|);
    text := Yellow + glyphs + Reset;
    BuiltIsBar(filled, cells, head, glyphs);
  }

  /** The list built by the method above (full cells, the partial cell when
      there is room, then padding) is the cell-by-cell bar. */
  lemma BuiltIsBar(filled: int, cells: int, head: seq<char>, glyphs: seq<char>)
    requires var full := filled / SubUnits;
      head == Repeat(BrailleChar(8), full) + (if full < cells then [BrailleChar(filled % SubUnits)] else [])
    requires glyphs == head + Repeat(BrailleChar(0), cells - |head|)
    ensures glyphs == Bar(filled, cells)
  {
    var spec := Bar(filled, cells);
    assert |glyphs| == |spec|;
    forall i | 0 <= i < |glyphs|
      ensures glyphs[i] == spec[i]
    {
      if i < |head| {
        assert glyphs[i] == head[i];
      }
    }
  }

  /** Total number of sub-units shown by a row of glyphs. */
  function SubUnitsShown(s: seq<char>): (n: int)
    ensures 0 <= n <= SubUnits * |s|
  {
    if |s| == 0 then 0 else SubUnitsShown(s[..|s| - 1]) + DotCount(s[|s| - 1])
  }

  // ---------------------------------------------------------------------
  // From the ratio to the number of filled sub-units

  lemma ScaleMonotone(a: real, b: real, c: real)
    requires a <= b && 0.0 <= c
    ensures a * c <= b * c
  {
    assert (b - a) * c >= 0.0;
  }

  lemma ScaleBounds(r: real, t: real)
    ensures 0.0 <= t && 0.0 <= r ==> 0.0 <= r * t
    ensures 0.0 <= t && r <= 1.0 ==> r * t <= t
  {
    if 0.0 <= t {
      if 0.0 <= r {
        ScaleMonotone(0.0, r, t);
      }
      if r <= 1.0 {
        ScaleMonotone(r, 1.0, t);
      }
    }
  }

  /** A ratio below 1 leaves at least one sub-unit of the bar unfilled. */
  lemma FilledBelowFull(ratio: real, cells: int)
    requires 0.0 <= ratio < 1.0 && cells > 0
    ensures 0 <= Filled(ratio, cells) < SubUnits * cells
  {
    var total := (cells * SubUnits) as real;
    ScaleMonotone(0.0, ratio, total);
    assert (1.0 - ratio) * total > 0.0;
    var x := ratio * total;
    assert 0.0 <= x < total;
    assert Filled(ratio, cells) == x.Floor;
  }

  /** More progress never fills fewer sub-units. */
  lemma FilledMonotone(r1: real, r2: real, cells: int)
    requires 0.0 <= r1 <= r2 && cells >= 0
    ensures 0 <= Filled(r1, cells) <= Filled(r2, cells)
  {
    var total := (cells * SubUnits) as real;
    ScaleMonotone(0.0, r1, total);
    ScaleMonotone(r1, r2, total);
    var x1, x2 := r1 * total, r2 * total;
    assert 0.0 <= x1 <= x2;
    assert Filled(r1, cells) == x1.Floor && Filled(r2, cells) == x2.Floor;
  }

  // ---------------------------------------------------------------------
  // Shape of the bar

  /** Without a negative fill, the bar has `cells` cells, or `filled / 8`
      when that is more: the builder does not clamp, so a fill past the
      bar's end lengthens it. */
  lemma BarLength(filled: int, cells: int)
    requires 0 <= filled && 0 <= cells
    ensures |Bar(filled, cells)| == Max(cells, filled / SubUnits)
    ensures filled >= SubUnits * (cells + 1) ==> |Bar(filled, cells)| == filled / SubUnits > cells
  {
  }

  /** Cell i shows the sub-units left after the i cells before it, capped
      at eight. */
  lemma BarCell(filled: int, cells: int, i: int)
    requires 0 <= filled && 0 <= i < |Bar(filled, cells)|
    ensures Bar(filled, cells)[i] == BrailleChar(filled - SubUnits * i)
    ensures DotCount(Bar(filled, cells)[i]) == Clamp(filled - SubUnits * i, 0, SubUnits)
  {
    var full, share := filled / SubUnits, filled - SubUnits * i;
    if i < full {
      assert share >= 8;
    } else if i == full {
      assert share == filled % SubUnits;
    } else {
      assert share < 0;
    }
    BrailleCharDotCount(share);
  }

  /** The row of n cells in which cell i holds `f - 8 * i` sub-units. */
  function Shares(f: int, n: int): (s: seq<char>)
    requires n >= 0
    ensures |s| == n
  {
    seq(n, i requires 0 <= i < n => BrailleChar(f - SubUnits * i))
  }

  lemma {:induction false} SharesShown(f: int, n: int)
    requires 0 <= f && 0 <= n
    ensures SubUnitsShown(Shares(f, n)) == Clamp(f, 0, SubUnits * n)
  {
    if n > 0 {
      SharesShown(f, n - 1);
      assert Shares(f, n)[..n - 1] == Shares(f, n - 1);
      BrailleCharDotCount(f - SubUnits * (n - 1));
    }
  }

  /** The sub-units shown across the whole bar add up to `filled` whenever
      the fill fits in the bar. */
  lemma BarShowsFilled(filled: int, cells: int)
    requires 0 <= filled <= SubUnits * cells
    ensures SubUnitsShown(Bar(filled, cells)) == filled
  {
    var bar := Bar(filled, cells);
    forall i | 0 <= i < cells
      ensures bar[i] == Shares(filled, cells)[i]
    {
      BarCell(filled, cells, i);
    }
    assert bar == Shares(filled, cells);
    SharesShown(filled, cells);
  }

  /** Ratio 0 gives an all-empty bar, ratio 1 an all-full one. */
  lemma BarEnds(cells: int)
    requires cells >= 0
    ensures Bar(Filled(0.0, cells), cells) == Repeat(EmptyGlyph, cells)
    ensures Bar(Filled(1.0, cells), cells) == Repeat(FullGlyph, cells)
  {
    var empty, full := Bar(Filled(0.0, cells), cells), Bar(Filled(1.0, cells), cells);
    assert Filled(1.0, cells) == SubUnits * cells;
    forall i | 0 <= i < cells
      ensures empty[i] == EmptyGlyph && full[i] == FullGlyph
    {
      BarCell(0, cells, i);
      BarCell(SubUnits * cells, cells, i);
    }
  }

  /** A larger fill keeps every dot a smaller fill raised, cell by cell. */
  lemma BarMonotone(f1: int, f2: int, cells: int, i: int)
    requires 0 <= f1 <= f2 <= SubUnits * cells && 0 <= i < cells
    ensures |Bar(f1, cells)| == |Bar(f2, cells)| == cells
    ensures Dots(Bar(f1, cells)[i]) & Dots(Bar(f2, cells)[i]) == Dots(Bar(f1, cells)[i])
  {
    var s1, s2 := f1 - SubUnits * i, f2 - SubUnits * i;
    BarCell(f1, cells, i);
    BarCell(f2, cells, i);
    assert Bar(f1, cells)[i] == BrailleChar(s1) && Bar(f2, cells)[i] == BrailleChar(s2);
    BrailleCharMonotone(s1, s2);
  }

  /** Half progress on ten cells: five full cells, then five empty ones. */
  lemma HalfBar()
    ensures Bar(Filled(0.5, 10), 10) == Repeat(FullGlyph, 5) + Repeat(EmptyGlyph, 5)
  {
    assert Filled(0.5, 10) == 40;
    var bar := Bar(40, 10);
    forall i | 0 <= i < 10
      ensures bar[i] == (Repeat(FullGlyph, 5) + Repeat(EmptyGlyph, 5))[i]
    {
      BarCell(40, 10, i);
    }
  }

  /** A slightly negative ratio is not drawn as an empty bar: the fill
      truncates to -4, floor division puts the first cell at index 0, and
      that cell shows 4 sub-units. */
  lemma NegativeRatioShowsDots()
    ensures Filled(-0.05, 10) == -4
    ensures |Bar(-4, 10)| == 10
    ensures DotCount(Bar(-4, 10)[0]) == 4
  {
    assert Filled(-0.05, 10) == -4;
    assert Bar(-4, 10)[0] == BrailleChar(4);
    BrailleCharDotCount(4);
  }
}

=== FILE: braille.dfy ===
/** A single Braille glyph that shows how many of its eight sub-cells are
    filled. The eight dots of a Unicode Braille pattern are raised one at a
    time, in a fixed order, and the glyph is the code point U+2800 with one
    bit set per raised dot. */
module Braille {

  /** Code point of the blank Braille pattern (U+2800). */
  const BrailleBase: int := 0x2800

  /** Order in which dots are raised: bottom to top, left column first.
      Dot numbers are the Unicode Braille dot numbers 1..8. */
  const FillOrder: seq<int> := [7, 3, 2, 1, 8, 6, 5, 4]

  /** Dots per glyph: one bar cell holds this many sub-units. */
  const SubUnits: int := 8

  /** The glyph with no dot raised and the glyph with all eight raised. */
  const EmptyGlyph: char := '\U{2800}'
  const FullGlyph: char := '\U{28FF}'

  /** Bit of a dot inside the low byte of a Braille code point. */
  function DotMask(dot: int): (m: bv8)
    requires 1 <= dot <= 8
    ensures Popcount(m) == 1
  {
    1 << (dot - 1)
  }

  /** 1 when the dot (or dots) of the mask `bit` are raised in `m`, else 0. */
  function Bit(m: bv8, bit: bv8): (b: int)
  {
    if m & bit != 0 then 1 else 0
  }

  /** Value of a pattern byte, summed bit by bit. */
  function Weight(m: bv8): (n: int)
  {
    Bit(m, 0x01) + 2 * Bit(m, 0x02) + 4 * Bit(m, 0x04) + 8 * Bit(m, 0x08) +
    16 * Bit(m, 0x10) + 32 * Bit(m, 0x20) + 64 * Bit(m, 0x40) + 128 * Bit(m, 0x80)
  }

  /** Number of raised dots in a pattern byte. */
  function Popcount(m: bv8): (n: int)
  {
    Bit(m, 0x01) + Bit(m, 0x02) + Bit(m, 0x04) + Bit(m, 0x08) +
    Bit(m, 0x10) + Bit(m, 0x20) + Bit(m, 0x40) + Bit(m, 0x80)
  }

  function Clamp(x: int, lo: int, hi: int): (r: int)
    requires lo <= hi
    ensures lo <= r <= hi
    ensures lo <= x <= hi ==> r == x
  {
    if x < lo then lo else if x > hi then hi else x
  }

  /** The mask of the first k dots of FillOrder, added up as integers the way
      the source does it. No two of these dots share a bit, so the sum is
      their bitwise or. */
  function MaskSum(k: int): (m: int)
    requires 0 <= k <= 8
    ensures m == MaskOr(k) as int
  {
    if k == 0 then 0
    else
      MaskOrAddStep(k);
      MaskSum(k - 1) + DotMask(FillOrder[k - 1]) as int
  }

  /** The same dots combined with bitwise or: the pattern the glyph shows. */
  function MaskOr(k: int): (m: bv8)
    requires 0 <= k <= 8
  {
    if k == 0 then 0 else MaskOr(k - 1) | DotMask(FillOrder[k - 1])
  }

  /** Python's `|` on non-negative integers, taken bit by bit from the low
      end. The or keeps every bit of both operands, so it is at least each
      of them, and it never carries, so it is at most their sum. */
  function BitOr(a: nat, b: nat): (r: nat)
    ensures a <= r && b <= r
    ensures r <= a + b
    decreases a + b
  {
    if a == 0 then b
    else if b == 0 then a
    else 2 * BitOr(a / 2, b / 2) + (if a % 2 == 1 || b % 2 == 1 then 1 else 0)
  }

  function Pow2(n: nat): (p: nat)
    ensures p >= 1
  {
    if n == 0 then 1 else 2 * Pow2(n - 1)
  }

  /** Or-ing a value below 2^n into a multiple of 2^n fills its zero low bits,
      which is an addition. */
  lemma {:induction false} OrIntoLowZeros(q: nat, n: nat, m: nat)
    requires m < Pow2(n)
    ensures BitOr(Pow2(n) * q, m) == Pow2(n) * q + m
  {
    var a := Pow2(n) * q;
    if n > 0 && a != 0 && m != 0 {
      var half := Pow2(n - 1) * q;
      assert a == 2 * half;
      OrIntoLowZeros(q, n - 1, m / 2);
      assert BitOr(a, m) == 2 * BitOr(half, m / 2) + m % 2;
    }
  }

  /** The glyph BrailleBase | mask. The low byte of BrailleBase is zero, so
      the or adds the mask to it. */
  function Glyph(mask: int): (c: char)
    requires 0 <= mask <= 0xFF
    ensures c as int == BrailleBase + mask
    ensures Dots(c) == mask as bv8
  {
    assert BrailleBase == Pow2(8) * 0x28;
    OrIntoLowZeros(0x28, 8, mask);
    BitOr(BrailleBase, mask) as char
  }

  /** The glyph for a cell with `filled` of its eight sub-cells filled. */
  function BrailleChar(filled: int): (c: char)
    ensures BrailleBase <= c as int <= BrailleBase + 0xFF
    ensures filled <= 0 ==> c == EmptyGlyph
    ensures filled >= 8 ==> c == FullGlyph
  {
    if filled <= 0 then Glyph(0)
    else if filled >= 8 then Glyph(0xFF)
    else Glyph(MaskSum(filled))
  }

  /** The pattern byte of a Braille glyph (0 for any other character). */
  function Dots(c: char): (m: bv8)
  {
    if BrailleBase <= c as int <= BrailleBase + 0xFF then (c as int - BrailleBase) as bv8 else 0
  }

  /** Number of filled sub-cells a glyph shows: the decoder of BrailleChar. */
  function DotCount(c: char): (n: int)
    ensures 0 <= n <= SubUnits
  {
    Popcount(Dots(c))
  }

  // ---------------------------------------------------------------------
  // Facts about the dot masks and the fill order

  /** FillOrder is a permutation of the dot numbers 1..8. */
  lemma FillOrderIsPermutation()
    ensures |FillOrder| == 8
    ensures forall i :: 0 <= i < 8 ==> 1 <= FillOrder[i] <= 8
    ensures forall i, j :: 0 <= i < j < 8 ==> FillOrder[i] != FillOrder[j]
  {
  }

  /** Distinct dots have disjoint single-bit masks. */
  lemma DotMasksDisjoint(d: int, e: int)
    requires 1 <= d <= 8 && 1 <= e <= 8
    ensures (DotMask(d) & DotMask(e) != 0) <==> d == e
  {
  }

  /** A dot's bit is set in MaskOr(k) exactly when the dot is among the
      first k entries of FillOrder. */
  lemma {:induction false} MaskOrHasDot(k: int, d: int)
    requires 0 <= k <= 8 && 1 <= d <= 8
    ensures (MaskOr(k) & DotMask(d) != 0) <==> d in FillOrder[..k]
  {
    if k > 0 {
      MaskOrHasDot(k - 1, d);
      MaskOrGains(k, d);
      PrefixGains(k, d);
    }
  }

  lemma PrefixGains(k: int, d: int)
    requires 0 < k <= 8
    ensures d in FillOrder[..k] <==> d in FillOrder[..k - 1] || FillOrder[k - 1] == d
  {
    assert FillOrder[..k] == FillOrder[..k - 1] + [FillOrder[k - 1]];
  }

  /** Step k of the fill order raises dot FillOrder[k - 1] and keeps the
      dots raised before. */
  lemma MaskOrGains(k: int, d: int)
    requires 0 < k <= 8 && 1 <= d <= 8
    ensures (MaskOr(k) & DotMask(d) != 0) <==> (MaskOr(k - 1) & DotMask(d) != 0 || FillOrder[k - 1] == d)
  {
    var e := FillOrder[k - 1];
    DotMasksDisjoint(e, d);
    OrMeets(MaskOr(k - 1), DotMask(e), DotMask(d));
  }

  /** A pattern meets the or of two others exactly when it meets one of them. */
  lemma OrMeets(a: bv8, b: bv8, x: bv8)
    ensures ((a | b) & x != 0) <==> (a & x != 0 || b & x != 0)
  {
  }

  lemma WeightIsValue(m: bv8)
    ensures m as int == Weight(m)
  {
  }

  /** A single bit is set in the or of two disjoint patterns exactly when
      it is set in one of them. */
  lemma BitOfDisjointOr(a: bv8, b: bv8, x: bv8)
    requires a & b == 0 && x & (x - 1) == 0
    ensures Bit(a | b, x) == Bit(a, x) + Bit(b, x)
  {
  }

  /** Or-ing two patterns with no dot in common adds their values. */
  lemma DisjointOrAdds(a: bv8, b: bv8)
    requires a & b == 0
    ensures (a | b) as int == a as int + b as int
  {
    BitOfDisjointOr(a, b, 0x01); BitOfDisjointOr(a, b, 0x02);
    BitOfDisjointOr(a, b, 0x04); BitOfDisjointOr(a, b, 0x08);
    BitOfDisjointOr(a, b, 0x10); BitOfDisjointOr(a, b, 0x20);
    BitOfDisjointOr(a, b, 0x40); BitOfDisjointOr(a, b, 0x80);
    WeightIsValue(a); WeightIsValue(b); WeightIsValue(a | b);
  }

  /** Or-ing two patterns with no dot in common adds their dot counts. */
  lemma DisjointOrCounts(a: bv8, b: bv8)
    requires a & b == 0
    ensures Popcount(a | b) == Popcount(a) + Popcount(b)
  {
    BitOfDisjointOr(a, b, 0x01); BitOfDisjointOr(a, b, 0x02);
    BitOfDisjointOr(a, b, 0x04); BitOfDisjointOr(a, b, 0x08);
    BitOfDisjointOr(a, b, 0x10); BitOfDisjointOr(a, b, 0x20);
    BitOfDisjointOr(a, b, 0x40); BitOfDisjointOr(a, b, 0x80);
  }

  lemma ByteRoundTrip(m: bv8)
    ensures (m as int) as bv8 == m
  {
  }

  /** The next dot in FillOrder is not yet raised in the mask before it. */
  lemma NextDotIsFresh(k: int)
    requires 0 <= k < 8
    ensures MaskOr(k) & DotMask(FillOrder[k]) == 0
  {
    FillOrderIsPermutation();
    MaskOrHasDot(k, FillOrder[k]);
    assert FillOrder[k] !in FillOrder[..k];
  }

  /** The mask of the first k dots has exactly k dots raised. */
  lemma {:induction false} MaskOrCount(k: int)
    requires 0 <= k <= 8
    ensures Popcount(MaskOr(k)) == k
  {
    if k > 0 {
      MaskOrCount(k - 1);
      MaskOrStep(k);
    }
  }

  /** Each step of the fill order raises one more dot. */
  lemma MaskOrStep(k: int)
    requires 0 < k <= 8
    ensures Popcount(MaskOr(k)) == Popcount(MaskOr(k - 1)) + 1
  {
    var before, dot := MaskOr(k - 1), DotMask(FillOrder[k - 1]);
    assert MaskOr(k) == before | dot;
    NextDotIsFresh(k - 1);
    DisjointOrCounts(before, dot);
  }

  /** Each step of the fill order adds the next dot's mask to the value. */
  lemma MaskOrAddStep(k: int)
    requires 0 < k <= 8
    ensures MaskOr(k) as int == MaskOr(k - 1) as int + DotMask(FillOrder[k - 1]) as int
  {
    var before, dot := MaskOr(k - 1), DotMask(FillOrder[k - 1]);
    assert MaskOr(k) == before | dot;
    NextDotIsFresh(k - 1);
    DisjointOrAdds(before, dot);
  }

  /** Masks are nested: every dot raised for j filled sub-cells stays raised
      for k >= j. */
  lemma {:induction false} MaskOrNested(j: int, k: int)
    requires 0 <= j <= k <= 8
    ensures MaskOr(j) & MaskOr(k) == MaskOr(j)
  {
    if j < k {
      MaskOrNested(j, k - 1);
    }
  }

  /** All eight dots of FillOrder give the full pattern 0xFF, so the source's
      hard-coded full glyph is the glyph the general branch would build. */
  lemma FullMaskAgrees()
    ensures MaskSum(8) == 0xFF
    ensures Glyph(MaskSum(8)) == BrailleChar(8)
  {
    MaskOrCount(8);
  }

  // ---------------------------------------------------------------------
  // Facts about BrailleChar

  /** The empty glyph raises no dot and the full glyph raises all eight. */
  lemma EndPatterns()
    ensures Dots(EmptyGlyph) == 0 && Dots(FullGlyph) == 0xFF
  {
  }

  /** The glyph for `filled` shows exactly `filled` dots, clamped to 0..8. */
  lemma BrailleCharDotCount(filled: int)
    ensures DotCount(BrailleChar(filled)) == Clamp(filled, 0, SubUnits)
  {
    if 0 < filled < 8 {
      BrailleCharPattern(filled);
      MaskOrCount(filled);
    } else if filled >= 8 {
      assert Dots(FullGlyph) == 0xFF;
      assert Popcount(0xFF) == 8;
    } else {
      assert Dots(EmptyGlyph) == 0;
    }
  }

  /** The pattern byte of the glyph for 0 < filled < 8 is the mask of the
      first `filled` dots of FillOrder. */
  lemma BrailleCharPattern(filled: int)
    requires 0 < filled < 8
    ensures Dots(BrailleChar(filled)) == MaskOr(filled)
    ensures BrailleChar(filled) as int == BrailleBase + MaskSum(filled)
  {
    ByteRoundTrip(MaskOr(filled));
  }

  /** More filled sub-cells never lower a raised dot. */
  lemma BrailleCharMonotone(j: int, k: int)
    requires j <= k
    ensures Dots(BrailleChar(j)) & Dots(BrailleChar(k)) == Dots(BrailleChar(j))
  {
    if j <= 0 {
      NoneBelow(j, Dots(BrailleChar(k)));
    } else if k >= 8 {
      AllAbove(k, Dots(BrailleChar(j)));
    } else {
      PartialNested(j, k);
    }
  }

  lemma NoneBelow(j: int, m: bv8)
    requires j <= 0
    ensures Dots(BrailleChar(j)) & m == Dots(BrailleChar(j))
  {
    EndPatterns();
  }

  lemma AllAbove(k: int, m: bv8)
    requires k >= 8
    ensures m & Dots(BrailleChar(k)) == m
  {
    EndPatterns();
  }

  lemma PartialNested(j: int, k: int)
    requires 0 < j <= k < 8
    ensures Dots(BrailleChar(j)) & Dots(BrailleChar(k)) == Dots(BrailleChar(j))
  {
    BrailleCharPattern(j);
    BrailleCharPattern(k);
    MaskOrNested(j, k);
  }

  /** Within 0..8 different fill counts give different glyphs. */
  lemma BrailleCharInjective(j: int, k: int)
    requires BrailleChar(j) == BrailleChar(k)
    ensures Clamp(j, 0, SubUnits) == Clamp(k, 0, SubUnits)
  {
    BrailleCharDotCount(j);
    BrailleCharDotCount(k);
  }
}

=== FILE: line.dfy ===
/** One status line: a spinner frame or a check mark, the padded name, the
    bar, the size readout and a "Pulling" or "Done" verdict. */
module LineRenderer {
  import opened Braille
  import opened BarRenderer

  const Green: string := "\U{1B}[92m"

  /** Spinner frames, shown in turn while the pull is running. */
  const Spinner: seq<char> := ['\U{280B}', '\U{2819}', '\U{2838}', '\U{2834}', '\U{2826}', '\U{2807}']

  /** The completion mark. */
  const CheckMark: char := '\U{2713}'

  /** Width the name is padded to, and the number of cells in the line's bar. */
  const NameWidth: int := 15
  const BarCells: int := 10

  predicate StartsWith(s: string, prefix: string)
  {
    |prefix| <= |s| && s[..|prefix|] == prefix
  }

  predicate EndsWith(s: string, suffix: string)
  {
    |suffix| <= |s| && s[|s| - |suffix|..] == suffix
  }

  /** `s` padded with spaces on the right to `width`; never truncated. */
  function LJust(s: string, width: int): (r: string)
    ensures |r| == Max(|s|, width)
    ensures r[..|s|] == s
    ensures forall i :: |s| <= i < |r| ==> r[i] == ' '
  {
    s + Repeat(' ', width - |s|)
  }

  /** The progress ratio drawn on the line: current / total, capped at 1. */
  function LineRatio(current: real, total: real): (r: real)
    requires total != 0.0
    ensures r <= 1.0
    ensures r == 1.0 || r == current / total
    ensures total > 0.0 ==> (r == 1.0 <==> current >= total)
    ensures total > 0.0 && current >= 0.0 ==> 0.0 <= r
  {
    var ratio := current / total;
    if 1.0 < ratio then 1.0 else ratio
  }

  /** The glyphs of the line's bar. Capping the ratio at 1 keeps it at
      exactly ten cells, whatever the counter. */
  function LineBar(current: real, total: real): (bar: seq<char>)
    requires total != 0.0
    ensures |bar| == BarCells
  {
    Bar(Filled(LineRatio(current, total), BarCells), BarCells)
  }

  /** Where each part of a status line sits: the status glyph, a space, the
      name padded to NameWidth, " [" and the bar colour, the bar's glyphs,
      the colour reset and "] ", the size readout, then a space and the
      verdict, and nothing else. */
  predicate Layout(line: string, status: string, name: string, glyphs: seq<char>, sizeText: string, verdict: string)
  {
    var width := Max(|name|, NameWidth);
    var bar := |status| + 1 + width + 2 + |Yellow|;
    var readout := bar + |glyphs| + |Reset| + 2;
    && |line| == readout + |sizeText| + 1 + |verdict|
    && line[..|status|] == status
    && line[|status|..|status| + 1] == " "
    && line[|status| + 1..|status| + 1 + width] == LJust(name, NameWidth)
    && line[|status| + 1 + width..bar] == " [" + Yellow
    && line[bar..bar + |glyphs|] == glyphs
    && line[bar + |glyphs|..readout] == Reset + "] "
    && line[readout..readout + |sizeText|] == sizeText
    && line[readout + |sizeText|..] == " " + verdict
  }

  /** A line laid out this way starts with its status glyph and ends with
      its verdict. */
  lemma LayoutEnds(line: string, status: string, name: string, glyphs: seq<char>, sizeText: string, verdict: string)
    requires Layout(line, status, name, glyphs, sizeText, verdict)
    ensures StartsWith(line, status) && EndsWith(line, " " + verdict)
  {
  }

  /** The f-string of the status line: status glyph, padded name, the
      coloured bar in brackets, the size readout and the verdict. */
  function Compose(status: string, name: string, glyphs: seq<char>, sizeText: string, verdict: string): (line: string)
  {
    var pre := status + " " + LJust(name, NameWidth) + " [" + Yellow;
    var post := Reset + "] " + sizeText + " " + verdict;
    pre + glyphs + post
  }

  /** A composed line has every part where Layout puts it. */
  lemma ComposeLayout(status: string, name: string, glyphs: seq<char>, sizeText: string, verdict: string)
    ensures Layout(Compose(status, name, glyphs, sizeText, verdict), status, name, glyphs, sizeText, verdict)
  {
    var padded := LJust(name, NameWidth);
    var pre := status + " " + padded + " [" + Yellow;
    var post := Reset + "] " + sizeText + " " + verdict;
    var line := pre + glyphs + post;
    assert line == Compose(status, name, glyphs, sizeText, verdict);
    assert pre[..|status|] == status;
    assert pre[|status|..|status| + 1] == " ";
    assert pre[|status| + 1..|status| + 1 + |padded|] == padded;
    assert pre[|status| + 1 + |padded|..] == " [" + Yellow;
    assert line[..|pre|] == pre;
    assert line[|pre|..|pre| + |glyphs|] == glyphs;
    assert line[|pre| + |glyphs|..] == post;
    assert post[..|Reset| + 2] == Reset + "] ";
    assert post[|Reset| + 2..|Reset| + 2 + |sizeText|] == sizeText;
    assert post[|Reset| + 2 + |sizeText|..] == " " + verdict;
  }

  /** A composed line starts with its status glyph and ends with its
      verdict. */
  lemma ComposeEnds(status: string, name: string, glyphs: seq<char>, sizeText: string, verdict: string)
    ensures StartsWith(Compose(status, name, glyphs, sizeText, verdict), status)
    ensures EndsWith(Compose(status, name, glyphs, sizeText, verdict), " " + verdict)
  {
    ComposeLayout(status, name, glyphs, sizeText, verdict);
    LayoutEnds(Compose(status, name, glyphs, sizeText, verdict), status, name, glyphs, sizeText, verdict);
  }

  /** The status line for `current` of `total` MB. `sizeText` is the size
      readout, formatted by the caller. */
  function RenderLine(name: string, current: real, total: real, spinIndex: int, sizeText: string): (line: string)
    requires total != 0.0
    ensures current < total ==> StartsWith(line, [Spinner[spinIndex % |Spinner|]]) && EndsWith(line, " Pulling")
    ensures current >= total ==> StartsWith(line, Green + [CheckMark] + Reset) && EndsWith(line, " Done")
  {
    var glyphs := LineBar(current, total);
    if current < total then
      var status := [Spinner[spinIndex % |Spinner|]];
      ComposeEnds(status, name, glyphs, sizeText, "Pulling");
      Compose(status, name, glyphs, sizeText, "Pulling")
    else
      var status := Green + [CheckMark] + Reset;
      ComposeEnds(status, name, glyphs, sizeText, "Done");
      Compose(status, name, glyphs, sizeText, "Done")
  }

  /** The whole status line: the spinner frame and "Pulling" below the
      total, the green check mark and "Done" from it on, with the padded
      name, the capped ratio's bar and the size readout between. */
  lemma RenderLineLayout(name: string, current: real, total: real, spinIndex: int, sizeText: string)
    requires total != 0.0
    ensures current < total ==>
      Layout(RenderLine(name, current, total, spinIndex, sizeText), [Spinner[spinIndex % |Spinner|]], name, LineBar(current, total), sizeText, "Pulling")
    ensures current >= total ==>
      Layout(RenderLine(name, current, total, spinIndex, sizeText), Green + [CheckMark] + Reset, name, LineBar(current, total), sizeText, "Done")
  {
    if current < total {
      ComposeLayout([Spinner[spinIndex % |Spinner|]], name, LineBar(current, total), sizeText, "Pulling");
    } else {
      ComposeLayout(Green + [CheckMark] + Reset, name, LineBar(current, total), sizeText, "Done");
    }
  }

  // ---------------------------------------------------------------------
  // What the clamp buys the bar

  /** The ratio clamp keeps the line's bar at exactly ten cells, showing as
      many sub-units as the ratio fills. */
  lemma LineBarWidth(current: real, total: real)
    requires total > 0.0 && current >= 0.0
    ensures |LineBar(current, total)| == BarCells
    ensures SubUnitsShown(LineBar(current, total)) == Filled(LineRatio(current, total), BarCells)
  {
    var filled := Filled(LineRatio(current, total), BarCells);
    BarShowsFilled(filled, BarCells);
  }

  /** The bar is drawn entirely full exactly when the line says "Done". */
  lemma LineBarFullIffDone(current: real, total: real)
    requires total > 0.0 && current >= 0.0
    ensures LineBar(current, total) == Repeat(FullGlyph, BarCells) <==> current >= total
  {
    var ratio := LineRatio(current, total);
    LineBarWidth(current, total);
    BarEnds(BarCells);
    BarShowsFilled(SubUnits * BarCells, BarCells);
    assert Filled(1.0, BarCells) == SubUnits * BarCells;
    if current < total {
      FilledBelowFull(ratio, BarCells);
    }
  }
}

=== FILE: simulation.dfy ===
/** The simulated pull: a counter rises by a random amount in [5, 12] MB,
    capped at the image size, and a status line is drawn after every step. */
module Simulation {
  import opened BarRenderer
  import opened LineRenderer

  /** Bounds of one random step, in MB. */
  const MinStep: real := 5.0
  const MaxStep: real := 12.0

  /** The random source: `draw(k)` is the amount drawn at step k. */
  ghost predicate ValidDraws(draw: nat -> real)
  {
    forall k: nat :: MinStep <= draw(k) <= MaxStep
  }

  /** The counter after k steps: each step adds the next draw and caps the
      sum at `total`, so once a step has been taken it never exceeds it. */
  function Progress(total: real, draw: nat -> real, k: nat): (current: real)
    ensures k > 0 || 0.0 <= total ==> current <= total
  {
    if k == 0 then 0.0
    else
      var next := Progress(total, draw, k - 1) + draw(k - 1);
      if next < total then next else total
  }

  // ---------------------------------------------------------------------
  // The counter

  /** The counter never leaves [0, total]. */
  lemma {:induction false} ProgressInRange(total: real, draw: nat -> real, k: nat)
    requires total > 0.0 && ValidDraws(draw)
    ensures 0.0 <= Progress(total, draw, k) <= total
  {
    if k > 0 {
      ProgressInRange(total, draw, k - 1);
    }
  }

  /** Below the total, every step raises the counter by at least MinStep or
      brings it to the total; at the total it stays there. */
  lemma ProgressStep(total: real, draw: nat -> real, k: nat)
    requires total > 0.0 && ValidDraws(draw)
    ensures var c, c' := Progress(total, draw, k), Progress(total, draw, k + 1);
      c <= c' && (c' == total || c' >= c + MinStep)
  {
    ProgressInRange(total, draw, k);
  }

  /** The counter never goes down. */
  lemma {:induction false} ProgressMonotone(total: real, draw: nat -> real, j: nat, k: nat)
    requires total > 0.0 && ValidDraws(draw) && j <= k
    ensures Progress(total, draw, j) <= Progress(total, draw, k)
  {
    if j < k {
      ProgressMonotone(total, draw, j, k - 1);
      ProgressStep(total, draw, k - 1);
    }
  }

  /** If the counter is still below the total after n - 1 steps, it was
      below the total after each of steps 1 .. n - 1. */
  lemma BelowUntilLast(total: real, draw: nat -> real, n: nat)
    requires total > 0.0 && ValidDraws(draw)
    requires n > 0 ==> Progress(total, draw, n - 1) < total
    ensures forall k :: 1 <= k < n ==> Progress(total, draw, k) < total
  {
    forall k | 1 <= k < n
      ensures Progress(total, draw, k) < total
    {
      ProgressMonotone(total, draw, k, n - 1);
    }
  }

  /** After k steps the counter is at the total or at least MinStep * k. */
  lemma {:induction false} ProgressAtLeast(total: real, draw: nat -> real, k: nat)
    requires total > 0.0 && ValidDraws(draw)
    ensures Progress(total, draw, k) == total || Progress(total, draw, k) >= MinStep * k as real
  {
    if k > 0 {
      ProgressAtLeast(total, draw, k - 1);
      ProgressStep(total, draw, k - 1);
      if Progress(total, draw, k - 1) == total {
        ProgressInRange(total, draw, k);
      }
    }
  }

  /** After ceil(total / MinStep) steps the counter has reached the total. */
  lemma ProgressReachesTotal(total: real, draw: nat -> real, k: nat)
    requires total > 0.0 && ValidDraws(draw)
    requires MinStep * k as real >= total
    ensures Progress(total, draw, k) == total
  {
    ProgressAtLeast(total, draw, k);
    ProgressInRange(total, draw, k);
  }

  // ---------------------------------------------------------------------
  // The lines written

  /** The line written after step k + 1 (spinner frame k): "Pulling" while
      the counter is below the total, "Done" once it has reached it. */
  function Frame(name: string, total: real, draw: nat -> real, sizeText: (real, real) -> string, k: nat): (line: string)
    requires total != 0.0
    ensures Progress(total, draw, k + 1) < total ==> StartsWith(line, [Spinner[k % |Spinner|]]) && EndsWith(line, " Pulling")
    ensures Progress(total, draw, k + 1) == total ==> StartsWith(line, Green + [CheckMark] + Reset) && EndsWith(line, " Done")
  {
    var current := Progress(total, draw, k + 1);
    RenderLine(name, current, total, k, sizeText(current, total))
  }

  /** The lines written during the first n steps, in order. */
  function Frames(name: string, total: real, draw: nat -> real, sizeText: (real, real) -> string, n: nat): (lines: seq<string>)
    requires total != 0.0
    ensures |lines| == n
  {
    seq(n, k requires 0 <= k < n => Frame(name, total, draw, sizeText, k))
  }

  /** Writing the line for the counter after step n + 1 extends the lines
      of the first n steps by one. */
  lemma NextFrame(name: string, total: real, draw: nat -> real, sizeText: (real, real) -> string, n: nat, current: real)
    requires total != 0.0
    requires current == Progress(total, draw, n + 1)
    ensures Frames(name, total, draw, sizeText, n) + [RenderLine(name, current, total, n, sizeText(current, total))]
         == Frames(name, total, draw, sizeText, n + 1)
  {
    var before, after := Frames(name, total, draw, sizeText, n), Frames(name, total, draw, sizeText, n + 1);
    var line := RenderLine(name, current, total, n, sizeText(current, total));
    assert Frame(name, total, draw, sizeText, n) == line;
    forall k | 0 <= k <= n
      ensures after[k] == (before + [line])[k]
    {
      if k < n {
        assert after[k] == Frame(name, total, draw, sizeText, k) == before[k];
      }
    }
  }

  /** When the counter first reaches the total after n steps, the first
      n - 1 lines say "Pulling" and the n-th says "Done". */
  lemma PullingThenDone(name: string, total: real, draw: nat -> real, sizeText: (real, real) -> string, n: nat)
    requires total != 0.0
    requires forall k :: 1 <= k < n ==> Progress(total, draw, k) < total
    requires n > 0 ==> Progress(total, draw, n) == total
    ensures forall k :: 0 <= k < n - 1 ==> EndsWith(Frames(name, total, draw, sizeText, n)[k], " Pulling")
    ensures n > 0 ==> EndsWith(Frames(name, total, draw, sizeText, n)[n - 1], " Done")
  {
    forall k | 0 <= k < n - 1
      ensures EndsWith(Frames(name, total, draw, sizeText, n)[k], " Pulling")
    {
      assert Progress(total, draw, k + 1) < total;
    }
  }

  // ---------------------------------------------------------------------
  // The loop

  /** Runs the pull of `totalMb` MB. `draw` supplies the random steps and
      `sizeText` formats the size readout. Returns the lines written during
      the loop, in order, and the final line printed after it. */
  method SimulatePull(name: string, totalMb: real, draw: nat -> real, sizeText: (real, real) -> string)
    returns (frames: seq<string>, last: string)
    requires totalMb != 0.0 && ValidDraws(draw)
    ensures totalMb < 0.0 ==> frames == []
    ensures totalMb > 0.0 ==> 1 <= |frames| && MinStep * (|frames| - 1) as real < totalMb
    ensures totalMb > 0.0 ==> Progress(totalMb, draw, |frames|) == totalMb
    ensures forall k :: 1 <= k < |frames| ==> Progress(totalMb, draw, k) < totalMb
    ensures frames == Frames(name, totalMb, draw, sizeText, |frames|)
    ensures forall k :: 0 <= k < |frames| - 1 ==> EndsWith(frames[k], " Pulling")
    ensures |frames| > 0 ==> EndsWith(frames[|frames| - 1], " Done")
    ensures last == RenderLine(name, totalMb, totalMb, |frames|, sizeText(totalMb, totalMb))
    ensures EndsWith(last, " Done")
  {
    var current := 0.0;
    var spinIndex := 0;
    frames := [];
    ghost var bound := if totalMb > 0.0 then (totalMb / MinStep).Floor + 1 else 0;
    while current < totalMb
      invariant spinIndex == |frames|
      invariant current == Progress(totalMb, draw, spinIndex)
      invariant 0.0 <= current
      invariant totalMb > 0.0 ==> current <= totalMb
      invariant current < totalMb ==> MinStep * spinIndex as real <= current
      invariant spinIndex > 0 ==> MinStep * (spinIndex - 1) as real < totalMb
      invariant spinIndex > 0 ==> Progress(totalMb, draw, spinIndex - 1) < totalMb
      invariant frames == Frames(name, totalMb, draw, sizeText, spinIndex)
      decreases bound - spinIndex
    {
      var next := current + draw(spinIndex);
      current := if next < totalMb then next else totalMb;
      var line := RenderLine(name, current, totalMb, spinIndex, sizeText(current, totalMb));
      NextFrame(name, totalMb, draw, sizeText, spinIndex, current);
      frames := frames + [line];
      spinIndex := spinIndex + 1;
    }
    last := RenderLine(name, totalMb, totalMb, spinIndex, sizeText(totalMb, totalMb));
    if totalMb > 0.0 {
      BelowUntilLast(totalMb, draw, |frames|);
    }
    PullingThenDone(name, totalMb, draw, sizeText, |frames|);
  }
}
